=== FILE: README.md ===
# Name-lookup core of `lab8.cpp`, modelled in Dafny

`lab8.cpp` is a small directory lookup tool. It reads (surname, name,
patronymic) triples, turns each into a `Record` holding a canonical full name
`SURNAME NAME PATRONYMIC`, a short name `SURNAME N.P.` and the djb2 hashes of
both, and sorts the records by `(full_hash, short_hash)`. It then answers
queries. A query is normalised and rewritten, split into tokens, and
classified as a short form (`SURNAME N.P.`), a full form (`SURNAME NAME
PATRONYMIC`) or an invalid one. Every record is then scanned: hashes are
compared first, and names only when the hashes agree. The scan counts both
kinds of comparison.

This project models that pipeline as Dafny modules, one per component:

| file | module | models |
|---|---|---|
| `bytes.dfy` | `Bytes` | string bytes, `uint32_t`, the ASCII table for `isalpha`/`toupper` |
| `hashing.dfy` | `Djb2` | `hash_string` |
| `normalize.dfy` | `Normalizer` | `normalize` |
| `records.dfy` | `Records` | `Record`, `make_short_name`, building one record, `operator<` |
| `directory.dfy` | `Directory` | the record-building loop and `sort` in `main` |
| `query_parser.dfy` | `QueryParser` | the parsing half of `search` |
| `matcher.dfy` | `Matcher` | the scan loop of `search` and its two counters |
| `lookup.dfy` | `Lookup` | `search` without its output, and end-to-end properties |

Each loop of the source is a method proved against a specification function:
`HashString`, `Normalize`, the three collapse loops (`CollapsePairs`), the
`std::unique` step (`SqueezeSpaces`), the `>>` loop (`Tokenize`), the scan
(`Match`), the `push_back` loop (`BuildRecords`) and the sort (`SortRecords`,
an insertion sort in place on an `array`). The properties are proved about the
specification functions.

Strings are byte sequences (`seq<Byte>`), because a C++ `std::string` is one
and `hash_string` reads each element as `unsigned char`. Hashes are integers
in `[0, 2^32)`, and every `uint32_t` operation reduces its result modulo
2^32 explicitly.

The main end-to-end results are in `lookup.dfy`. Take a triple whose three
fields each normalise to a non-empty run of letters. Typing the three fields
separated by spaces finds the record built from it (`FoundByFullName`).
Typing its short name also finds it, in any letter case and with or without
the final dot (`FoundByShortName`). The hash pre-filter never loses a match
(`HashFilterIsSound`).

Two consequences of the source that a reader might not expect:

- `lab8.cpp` never calls `setlocale`, so `isalpha` and `toupper` on a plain
  `char` follow the "C" locale, where only ASCII letters are letters. Every
  byte of a UTF-8 Cyrillic letter is therefore dropped by `normalize`, not
  upper-cased. The model uses the ASCII table. All length tests in the parser
  count bytes, not characters.
- `std::sort` is not stable, so records with equal `(full_hash, short_hash)`
  keys can come out in any order. `SortRecords` promises only that its output
  is sorted and is a permutation of its input.

## Model

| member | source | states |
|---|---|---|
| `Bytes.IsAlpha` | lab8.cpp:50 | `isalpha` in the "C" locale: true exactly for the ASCII letters A-Z and a-z; `Keep` and `Normalize` use it |
| `Bytes.ToUpper` | lab8.cpp:50-51 | a lower-case letter becomes its upper-case form (`c - 0x20`); any byte that is not a lower-case letter is unchanged |
| `Djb2.Step` | lab8.cpp:30 | one loop iteration, written as the shift form `((h << 5) + h) + c` with every `uint32_t` operation wrapping; it equals `(h * 33 + c) mod 2^32` |
| `Djb2.HashFrom` | lab8.cpp:29-31 | the loop from a given accumulator, one `Step` per byte in order; `HashFromAppend` carries its properties |
| `Djb2.Hash` | lab8.cpp:27-33 | the djb2 hash as the loop computes it: `HashFrom` from 5381; its recurrence is `HashRecurrence` |
| `Djb2.HashFromAppend` | lab8.cpp:28-31 | feeding one more byte to the loop is exactly one more step, from any starting accumulator |
| `Djb2.HashRecurrence` | lab8.cpp:27-33 | the empty string hashes to 5381, and `hash(s + [c]) == (hash(s) * 33 + c) mod 2^32` |
| `Djb2.HashString` | lab8.cpp:27-33 | the loop returns the djb2 hash of the whole string; 5381 for the empty string |
| `Normalizer.Keep` | lab8.cpp:48-52 | a dot or a space is kept as it is; a letter becomes `[toupper(c)]`; every other byte is dropped |
| `Normalizer.NormalizedSingle` | lab8.cpp:47-53 | a one-byte string normalises to what that byte contributes; with `NormalizedConcat` this fixes the whole result byte by byte, in order |
| `Normalizer.Normalized` | lab8.cpp:45-55 | the result is never longer than the input and holds only dots, spaces and upper-case letters (its content is fixed by `NormalizedSingle` and `NormalizedConcat`) |
| `Normalizer.NormalizedConcat` | lab8.cpp:45-55 | normalising a concatenation is concatenating the normalised parts |
| `Normalizer.NormalizedFixedPoints` | lab8.cpp:45-55 | normalising leaves a string unchanged exactly when it holds only dots, spaces and upper-case letters |
| `Normalizer.NormalizedIdempotent` | lab8.cpp:45-55 | normalising twice is the same as normalising once |
| `Normalizer.Normalize` | lab8.cpp:45-55 | the append loop computes the normalised string |
| `Records.ShortName` | lab8.cpp:57-60 | the surname is a prefix of the result; with an empty name or patronymic the result is the surname itself; otherwise five more bytes follow: space, first byte of the name, dot, first byte of the patronymic, dot |
| `Records.BuildRecord` | lab8.cpp:190-202 | the full name is the three normalised fields joined by single spaces, which is also the normalisation of the raw fields joined by spaces; the short name is built from the normalised fields; both stored hashes are the hashes of the stored names |
| `Records.JoinFull` | lab8.cpp:194 | the full name: surname, space, name, space, patronymic; `BuildRecord` and `NormalizedJoin` state its properties |
| `Records.NormalizedJoin` | lab8.cpp:190-194 | normalising the joined raw triple equals joining the normalised fields |
| `Records.Less` | lab8.cpp:20-24 | `operator<` holds exactly when the 64-bit key `full_hash * 2^32 + short_hash` is smaller, i.e. lexicographic order on the pair |
| `Records.LessIsStrictWeakOrder` | lab8.cpp:20-24 | `operator<` is irreflexive, asymmetric and transitive, and two records are unordered exactly when both hashes agree |
| `Directory.Built` | lab8.cpp:189-203 | one record per input triple |
| `Directory.BuiltAt` | lab8.cpp:189-203 | the k-th record pushed is the record built from the k-th triple |
| `Directory.BuiltWellFormed` | lab8.cpp:197-202 | every pushed record stores the hashes of its own names |
| `Directory.BuildRecords` | lab8.cpp:188-203 | the `push_back` loop produces the built records in input order |
| `Directory.SwapAdjacent` | lab8.cpp:205 | exchanging two neighbours changes only those two slots and keeps the multiset of records |
| `Directory.InsertLast` | lab8.cpp:205 | one insertion step extends the sorted prefix by one, keeps the multiset and leaves the rest of the array alone |
| `Directory.SortRecords` | lab8.cpp:205 | the sorted array has non-decreasing `(full_hash, short_hash)` keys and is a permutation of the input |
| `Directory.BuildDirectory` | lab8.cpp:186-205 | the directory is a permutation of the built records, one per triple; no record is `operator<` its predecessor; keys never decrease; every record stores its own hashes |
| `QueryParser.FindPairFrom` | lab8.cpp:86 | `find` scanning from a given index returns the first occurrence of the two-byte pattern, or `npos` exactly when there is none |
| `QueryParser.FindPair` | lab8.cpp:86 | `find` returns the first occurrence of the pattern, or `npos` exactly when the pattern is absent |
| `QueryParser.ReplaceAt` | lab8.cpp:87 | `replace(pos, 2, ".")` keeps the bytes before `pos`, puts one `.` at `pos`, keeps the bytes after the pair, and so shortens the string by one byte |
| `QueryParser.ReplaceKeepsLetters` | lab8.cpp:87 | replacing a pair of non-letters by `.` keeps every letter, in order |
| `QueryParser.ReplaceDrops` | lab8.cpp:87 | replacing a pair that holds a dot by `.` deletes only the pair's other byte; with that byte removed from both sides, the string is unchanged |
| `QueryParser.ReplaceKeeps` | lab8.cpp:87 | one replacement keeps the letters (for a non-letter pattern) and every byte but the deleted one (for a pattern holding a dot) |
| `QueryParser.Collapsed` | lab8.cpp:86-88 | after a collapse loop its pattern no longer occurs, the string is no longer than before, and a string without the pattern is left unchanged. For a pattern of non-letters every letter survives in order. For a pattern holding a dot, each replacement deletes only the other byte of the pair (the space of `" ."` and `". "`, one dot of `".."`), so every other byte survives in order; in particular no dot is lost in the first two passes |
| `QueryParser.CollapsePairs` | lab8.cpp:86-94 | the `while`/`find`/`replace` loop computes the collapsed string |
| `QueryParser.CollapseAll` | lab8.cpp:85-94 | the three collapse loops in source order (`" ."`, then `". "`, then `".."`); `CollapseAllClean` proves none of the patterns survives |
| `QueryParser.ReplacePreserves` | lab8.cpp:89-94 | replacing a dot-led pair by a dot creates no earlier-removed pattern |
| `QueryParser.CollapsePreserves` | lab8.cpp:89-94 | the `". "` and `".."` passes never re-create a pattern an earlier pass removed |
| `QueryParser.CollapseAllClean` | lab8.cpp:85-94 | after the three loops none of `" ."`, `". "`, `".."` occurs |
| `QueryParser.NoPairSnoc` | lab8.cpp:96-97 | appending a byte creates a pattern only when it completes one with the last byte |
| `QueryParser.Squeezed` | lab8.cpp:96-97 | after `erase(unique(...))` no two adjacent bytes are both spaces, the string is no longer, and the last byte is kept |
| `QueryParser.SqueezedFixedPoints` | lab8.cpp:96-97 | squeezing leaves a string unchanged exactly when it has no two adjacent spaces |
| `QueryParser.SqueezeSpaces` | lab8.cpp:96-97 | the `std::unique` loop, which compares each byte with the last byte kept, computes the squeezed string |
| `QueryParser.FirstNonSpace` | lab8.cpp:99 | `find_first_not_of(" ")`: every byte before it is a space, and the byte there is not |
| `QueryParser.EndOfNonSpace` | lab8.cpp:100 | one past `find_last_not_of(" ")`: every byte from there on is a space, and the byte before is not |
| `QueryParser.Trimmed` | lab8.cpp:99-103 | if the string has a non-space byte, the result starts and ends with one; an all-space string is left as it is; an already trimmed string is unchanged |
| `QueryParser.TrimmedStripsSpaces` | lab8.cpp:99-103 | the input is the result with only spaces before and after it |
| `QueryParser.Span` | lab8.cpp:108 | `>>` reads the leading run of non-space bytes, stopping at a space or the end |
| `QueryParser.SpanUnique` | lab8.cpp:108 | that run has only one possible length |
| `QueryParser.Words` | lab8.cpp:106-108 | every word is non-empty and contains no space |
| `QueryParser.DropLoneDots` | lab8.cpp:109-111 | the kept tokens are exactly the words other than a lone `.` |
| `QueryParser.DropLoneDotsKeeps` | lab8.cpp:109-111 | a word list without lone dots is kept in full |
| `QueryParser.Tokens` | lab8.cpp:105-112 | every token is non-empty, contains no space and is not `"."` |
| `QueryParser.TokensSkipSpace` | lab8.cpp:108 | a leading space contributes no token |
| `QueryParser.TokensSplitWord` | lab8.cpp:108-111 | a maximal non-space run is the next token unless it is a lone dot |
| `QueryParser.Tokenize` | lab8.cpp:105-112 | the `iss >> part` loop yields exactly the tokens |
| `QueryParser.WordsLead` | lab8.cpp:108 | a space-free word followed by the end or a space is read off as the first word |
| `QueryParser.WordsOfSpaces` | lab8.cpp:108 | a string of spaces yields no word |
| `QueryParser.WordsLeadingSpaces` | lab8.cpp:108 | leading spaces change no word |
| `QueryParser.WordsTrailingSpaces` | lab8.cpp:108 | trailing spaces change no word |
| `QueryParser.WordsDoubleSpace` | lab8.cpp:108 | a double space and a single space separate the same words |
| `QueryParser.SpaceAfterSpace` | lab8.cpp:96-97 | a space directly after a space changes no word |
| `QueryParser.SqueezedWords` | lab8.cpp:96-97 | squeezing a prefix changes no word, whatever follows it |
| `QueryParser.SqueezedKeepsTokens` | lab8.cpp:96-112 | the `erase(unique(...))` step never changes the tokens `>>` reads |
| `QueryParser.TrimmedKeepsTokens` | lab8.cpp:99-112 | the trim step never changes the tokens `>>` reads |
| `QueryParser.IsShortForm` | lab8.cpp:115-117 | `is_short_form`: exactly two tokens, the second of length 3 or 4 and holding a dot; `Classify` uses it |
| `QueryParser.Classify` | lab8.cpp:115-137 | invalid exactly when there are fewer than 2 tokens, or 2 tokens not of short shape; short form exactly when there are 2 tokens and the second has length 3 or 4 and holds a dot, with a dot appended to a length-3 second token; otherwise the first three tokens joined by spaces; the hash is the hash of the canonical string |
| `QueryParser.Cleaned` | lab8.cpp:83-103 | the query after normalising, the three collapse loops, squeezing and trimming; `CollapseAllClean`, `SqueezedKeepsTokens` and `TrimmedKeepsTokens` state what each step does |
| `QueryParser.Parse` | lab8.cpp:83-137 | the parsing half of `search`: `Classify` of the tokens of the cleaned query; `ParseQuery` and `Search` are proved against it |
| `QueryParser.ParseQuery` | lab8.cpp:83-137 | the in-place rewriting, tokenising and classifying steps compute the parse result |
| `Matcher.SelectedHash` | lab8.cpp:145-153 | `short_hash` for a short-form query, `full_hash` otherwise; `Match` and `HashFilterIsSound` use it |
| `Matcher.SelectedName` | lab8.cpp:145-155 | `short_name` for a short-form query, `full_name` otherwise; `Match` and `HashFilterIsSound` use it |
| `Matcher.HashHits` | lab8.cpp:143-147 | the count of hash hits is at most the number of records |
| `Matcher.Hits` | lab8.cpp:143-160 | there are at most as many matches as string comparisons; every match is a record of the directory whose selected name is the query string |
| `Matcher.HashFilterIsSound` | lab8.cpp:143-160 | when records store their own hashes and the query carries its own hash, the matches are exactly the records whose selected name equals the query string, in directory order |
| `Matcher.NameMatches` | lab8.cpp:143-160 | the list the scan is meant to return: every record whose selected name is the query string, in directory order; `HashFilterIsSound` and `NameMatchesComplete` relate it to the scan |
| `Matcher.NameMatchesComplete` | lab8.cpp:148-156 | every record whose selected name is the query string is among the name matches |
| `Matcher.Match` | lab8.cpp:139-160 | hash comparisons equal the number of records; string comparisons equal the records whose selected hash equals the query hash; matches are the records passing both tests, in order |
| `Lookup.Search` | lab8.cpp:82-160 | no scan happens for an invalid query; otherwise the result is the parse and the scan of the whole directory, and an empty directory gives no matches and zero counters |
| `Lookup.NoSeparatorPair` | lab8.cpp:85-97 | a string with no two adjacent non-letters holds none of the rewritten patterns |
| `Lookup.CleanedFixed` | lab8.cpp:83-103 | such a string, starting and ending with a non-space, comes out of every rewriting step unchanged |
| `Lookup.WordShape` | lab8.cpp:105-112 | a run of letters has no space and is not a lone dot |
| `Lookup.WordsCons` | lab8.cpp:106-108 | a word followed by a space is read off as the first word |
| `Lookup.WordsSingle` | lab8.cpp:106-108 | a string without spaces is read as one word |
| `Lookup.FullNameShape` | lab8.cpp:194 | a full name of three letter words has isolated separators and starts and ends with a letter |
| `Lookup.FullNameTokens` | lab8.cpp:105-112 | a full name of three letter words splits back into those three words |
| `Lookup.ParseFullName` | lab8.cpp:83-131 | such a full name parses as a full-form query whose canonical string is itself |
| `Lookup.InitialsShape` | lab8.cpp:115-117 | a surname, a space and `N.P` or `N.P.` have isolated separators and a second token of short shape |
| `Lookup.TwoTokens` | lab8.cpp:105-112 | a word, a space and a second token split back into those two tokens |
| `Lookup.ParseTwoTokens` | lab8.cpp:83-117 | such a two-token string parses by classifying exactly those tokens |
| `Lookup.ClassifyInitials` | lab8.cpp:122-128 | two tokens whose second is `N.P` or `N.P.` classify as the short form `SURNAME N.P.` |
| `Lookup.ParseShortName` | lab8.cpp:83-128 | a surname followed by `N.P` or `N.P.` parses as the short form `SURNAME N.P.` with its hash |
| `Lookup.ScanFinds` | lab8.cpp:143-160 | the scan returns every well-formed record whose selected name is the query string |
| `Lookup.FoundByFullName` | lab8.cpp:82-160 | typing a record's three fields separated by spaces gives a full-form query that finds that record |
| `Lookup.TypedShortSplit` | lab8.cpp:57-60 | a short name, or a short name less its final dot, is the surname, a space and initials |
| `Lookup.ParseOfNormalized` | lab8.cpp:83 | a query parses exactly as its normal form does |
| `Lookup.FoundByShortName` | lab8.cpp:82-160 | typing a record's short name, in any letter case and with or without the final dot, gives a short-form query that finds that record |
| `Lookup.OneWordIsInvalid` | lab8.cpp:115-137 | a query that normalises to a single word is of invalid format |

## Left out

- `load_database` and `split` (lab8.cpp:35-43, 62-80): file I/O. The input is a given sequence of `Triple`s. The failure exit is not modelled, and neither is skipping lines that do not have three fields.
- All console output: the directory table in `main` and the result and statistics printing in `search`. `Search` returns what would be printed (the parsed query, the matches and both counters) instead of printing it.
- The interactive loop in `main` (`exit` and empty-line handling): it is shell glue around `Search`.
- The locale: `isalpha`/`toupper` are the fixed ASCII table of the "C" locale. Calling them with a negative `char` is undefined behaviour in C++, and the model does not represent that behaviour. Non-ASCII bytes are simply not letters.
- `istringstream >>` splits on every whitespace byte. After normalisation the only whitespace left is the space, so the model splits on spaces only.
- `std::unique` compacts the string in place and `erase` cuts off the tail. `SqueezeSpaces` builds the same result as a new sequence, so it does not model that in-place update.
- `std::sort` is introsort. `SortRecords` is an insertion sort with the same contract: sorted by `operator<` and a permutation. When keys are equal, the model and the source may order records differently.
- `hash_comparisons` and `string_comparisons` are `int` in the source. The model uses unbounded naturals. Overflow would need more than 2^31 - 1 records, and the model does not represent it.

=== FILE: bytes.dfy ===
/**
 * Bytes of a C++ `std::string`, the unsigned 32-bit integers the hashes
 * live in, and the fixed character table that stands in for `isalpha` and
 * `toupper` (ASCII letters, as in the default "C" locale).
 */
module Bytes {

  /** One element of a `std::string`, read as `unsigned char`. */
  type Byte = b: int | 0 <= b < 0x100

  /** A `uint32_t`. */
  type U32 = n: int | 0 <= n < 0x1_0000_0000

  const Space: Byte := 0x20
  const Dot: Byte := 0x2E

  predicate IsUpper(c: Byte) { 0x41 <= c <= 0x5A }

  predicate IsLower(c: Byte) { 0x61 <= c <= 0x7A }

  predicate IsAlpha(c: Byte) { IsUpper(c) || IsLower(c) }

  /** `toupper`: lower-case letters move to upper case, every other byte is unchanged. */
  function ToUpper(c: Byte): (u: Byte)
    ensures IsAlpha(c) ==> IsUpper(u)
    ensures IsLower(c) ==> u == c - 0x20
    ensures !IsLower(c) ==> u == c
  {
    if IsLower(c) then c - 0x20 else c
  }

  datatype Option<+T> = None | Some(value: T)
}

=== FILE: directory.dfy ===
/**
 * The directory built at start-up in `main`: one record per input triple,
 * pushed in input order, then `std::sort` with `Record::operator<`.
 */
module Directory {
  import opened Bytes
  import opened Records

  /** One line of the input file, already split on `;`. */
  datatype Triple = Triple(surname: seq<Byte>, name: seq<Byte>, patronymic: seq<Byte>)

  function BuildFrom(t: Triple): Record
  {
    BuildRecord(t.surname, t.name, t.patronymic)
  }

  /** The records in input order, before sorting: what the `push_back` loop leaves. */
  function Built(db: seq<Triple>): (rs: seq<Record>)
    ensures |rs| == |db|
  {
    if db == [] then [] else Built(db[..|db| - 1]) + [BuildFrom(db[|db| - 1])]
  }

  /** The `k`-th record is built from the `k`-th triple. */
  lemma {:induction false} BuiltAt(db: seq<Triple>, k: nat)
    requires k < |db|
    ensures Built(db)[k] == BuildRecord(db[k].surname, db[k].name, db[k].patronymic)
    decreases |db|
  {
    if k < |db| - 1 {
      BuiltAt(db[..|db| - 1], k);
    }
  }

  /** Every built record stores the hashes of its own names. */
  lemma BuiltWellFormed(db: seq<Triple>)
    ensures forall r | r in Built(db) :: WellFormed(r)
  {
    forall r | r in Built(db)
      ensures WellFormed(r)
    {
      var k :| 0 <= k < |db| && Built(db)[k] == r;
      BuiltAt(db, k);
    }
  }

  /** Non-decreasing `(full_hash, short_hash)` keys. */
  predicate SortedByKey(s: seq<Record>)
  {
    forall i, j | 0 <= i < j < |s| :: Key(s[i]) <= Key(s[j])
  }

  /** The record-building loop of `main`: one `push_back` per triple, in input order. */
  method BuildRecords(db: seq<Triple>) returns (records: seq<Record>)
    ensures records == Built(db)
  {
    records := [];
    for i := 0 to |db|
      invariant records == Built(db[..i])
    {
      assert db[..i + 1][..i] == db[..i];
      var t := db[i];
      var record := BuildRecord(t.surname, t.name, t.patronymic);
      records := records + [record];
    }
    assert db[..|db|] == db;
  }

  /** Exchange two neighbouring records. */
  method SwapAdjacent(a: array<Record>, j: nat)
    requires 0 < j < a.Length
    modifies a
    ensures a[..] == old(a[..])[j - 1 := old(a[j])][j := old(a[j - 1])]
    ensures multiset(a[..]) == multiset(old(a[..]))
  {
    a[j - 1], a[j] := a[j], a[j - 1];
  }

  /** Move `a[i]` left past every record with a larger key, leaving `a[..i + 1]` sorted. */
  method InsertLast(a: array<Record>, i: nat)
    requires i < a.Length
    requires SortedByKey(a[..i])
    modifies a
    ensures SortedByKey(a[..i + 1])
    ensures a[i + 1..] == old(a[i + 1..])
    ensures multiset(a[..]) == multiset(old(a[..]))
  {
    var j := i;
    while j > 0 && Less(a[j], a[j - 1])
      invariant 0 <= j <= i
      invariant forall p, q | 0 <= p < q <= i && p != j && q != j :: Key(a[p]) <= Key(a[q])
      invariant forall q | j < q <= i :: Key(a[j]) < Key(a[q])
      invariant a[i + 1..] == old(a[i + 1..])
      invariant multiset(a[..]) == multiset(old(a[..]))
    {
      SwapAdjacent(a, j);
      j := j - 1;
    }
  }

  /** `sort(records.begin(), records.end())`, as an insertion sort by adjacent swaps. */
  method SortRecords(a: array<Record>)
    modifies a
    ensures SortedByKey(a[..])
    ensures multiset(a[..]) == multiset(old(a[..]))
  {
    for i := 0 to a.Length
      invariant SortedByKey(a[..i])
      invariant multiset(a[..]) == multiset(old(a[..]))
    {
      InsertLast(a, i);
    }
    assert a[..a.Length] == a[..];
  }

  /** The directory: the built records, sorted by `(full_hash, short_hash)`. */
  method BuildDirectory(db: seq<Triple>) returns (dir: seq<Record>)
    ensures multiset(dir) == multiset(Built(db))
    ensures |dir| == |db|
    ensures forall i | 0 <= i < |dir| - 1 :: !Less(dir[i + 1], dir[i])
    ensures SortedByKey(dir)
    ensures forall r | r in dir :: WellFormed(r)
  {
    var records := BuildRecords(db);
    BuiltWellFormed(db);
    var a := new Record[|records|](i requires 0 <= i < |records| => records[i]);
    assert a[..] == records;
    SortRecords(a);
    dir := a[..];
    forall i | 0 <= i < |dir| - 1
      ensures !Less(dir[i + 1], dir[i])
    {
      assert Key(dir[i]) <= Key(dir[i + 1]);
    }
    forall r | r in dir
      ensures WellFormed(r)
    {
      assert r in multiset(dir);
      assert r in records;
    }
  }
}

=== FILE: hashing.dfy ===
/**
 * The djb2 string hash of `hash_string`: start at 5381 and, for every byte,
 * shift the accumulator left by five, add the accumulator and add the byte,
 * all in unsigned 32-bit arithmetic.
 */
module Djb2 {
  import opened Bytes

  const Seed: U32 := 5381
  const Modulus: int := 0x1_0000_0000

  /** Reduction to `uint32_t`: what every `uint32_t` operation does to its exact result. */
  function Wrap(x: int): U32 { x % Modulus }

  /**
   * One iteration of the loop: `((hash << 5) + hash) + c`, each operation
   * wrapping; this is the textbook recurrence `h * 33 + c (mod 2^32)`.
   */
  function Step(h: U32, c: Byte): (r: U32)
    ensures r == (h * 33 + c) % Modulus
  {
    var a := h * 32;
    assert Wrap(a) + h == a + h - (a / Modulus) * Modulus;
    assert Wrap(Wrap(a) + h) + c == a + h + c - (a / Modulus) * Modulus - ((Wrap(a) + h) / Modulus) * Modulus;
    Wrap(Wrap(Wrap(a) + h) + c)
  }

  /** The loop started from accumulator `acc`, over the bytes of `s` in order. */
  function HashFrom(acc: U32, s: seq<Byte>): U32
    decreases |s|
  {
    if s == [] then acc else HashFrom(Step(acc, s[0]), s[1..])
  }

  /** `hash_string`. */
  function Hash(s: seq<Byte>): U32
  {
    HashFrom(Seed, s)
  }

  /** Feeding one more byte is one more step, whatever the starting accumulator. */
  lemma {:induction false} HashFromAppend(acc: U32, s: seq<Byte>, c: Byte)
    ensures HashFrom(acc, s + [c]) == Step(HashFrom(acc, s), c)
    decreases |s|
  {
    if s == [] {
      assert [c][1..] == [];
    } else {
      assert (s + [c])[1..] == s[1..] + [c];
      HashFromAppend(Step(acc, s[0]), s[1..], c);
    }
  }

  /** The empty string hashes to 5381, and appending a byte multiplies by 33 and adds it, modulo 2^32. */
  lemma HashRecurrence(s: seq<Byte>, c: Byte)
    ensures Hash([]) == 5381
    ensures Hash(s + [c]) == (Hash(s) * 33 + c) % 0x1_0000_0000
  {
    HashFromAppend(Seed, s, c);
  }

  /** `hash_string` as the loop it is. */
  method HashString(s: seq<Byte>) returns (h: U32)
    ensures h == Hash(s)
    ensures s == [] ==> h == 5381
  {
    h := Seed;
    for i := 0 to |s|
      invariant h == Hash(s[..i])
    {
      HashFromAppend(Seed, s[..i], s[i]);
      assert s[..i + 1] == s[..i] + [s[i]];
      h := Step(h, s[i]);
    }
    assert s[..|s|] == s;
  }
}

=== FILE: lookup.dfy ===
/**
 * `search` without its printing: parse the query, then scan the directory;
 * and the end-to-end property that ties the record builder to the query
 * parser: a record is found by its own full name and by its own short name.
 */
module Lookup {
  import opened Bytes
  import opened Djb2
  import opened Normalizer
  import opened Records
  import opened QueryParser
  import opened Matcher

  /** What `search` reports: the format message, or the parsed query and the scan result. */
  datatype SearchOutcome = BadFormat | Answered(query: Query, result: MatchResult)

  /** `search`, less its output: no scan happens for a query of invalid format. */
  method Search(records: seq<Record>, query: seq<Byte>) returns (out: SearchOutcome)
    ensures out.BadFormat? <==> Parse(query) == InvalidFormat
    ensures out.Answered? ==> Parse(query) == Valid(out.query)
    ensures out.Answered? ==> out.result.hashComparisons == |records|
    ensures out.Answered? ==> out.result.stringComparisons == HashHits(records, out.query)
    ensures out.Answered? ==> out.result.matches == Hits(records, out.query)
    ensures out.Answered? && records == [] ==> out.result == MatchResult([], 0, 0)
  {
    var parsed := ParseQuery(query);
    match parsed
    case InvalidFormat =>
      out := BadFormat;
    case Valid(q) =>
      var result := Match(records, q);
      out := Answered(q, result);
  }

  // ---------------------------------------------------------------------
  // Queries that are already in canonical shape
  // ---------------------------------------------------------------------

  /** A non-empty run of upper-case letters: a normalised name field without dots or spaces. */
  predicate IsWord(w: seq<Byte>)
  {
    w != [] && forall i | 0 <= i < |w| :: IsUpper(w[i])
  }

  /** No two neighbouring bytes are both non-letters. */
  predicate LettersBetweenSeparators(q: seq<Byte>)
  {
    forall k | 0 <= k < |q| - 1 :: IsUpper(q[k]) || IsUpper(q[k + 1])
  }

  /** A string whose separators are isolated holds none of the patterns the parser rewrites. */
  lemma NoSeparatorPair(q: seq<Byte>, x: Byte, y: Byte)
    requires LettersBetweenSeparators(q)
    requires !IsUpper(x) && !IsUpper(y)
    ensures !HasPair(q, x, y)
  {
    forall k | 0 <= k < |q| - 1
      ensures !PairAt(q, x, y, k)
    {
    }
  }

  /** Such a string comes out of every rewriting step unchanged. */
  lemma CleanedFixed(q: seq<Byte>)
    requires AllNormal(q) && LettersBetweenSeparators(q)
    requires q != [] && q[0] != Space && q[|q| - 1] != Space
    ensures Cleaned(q) == q
  {
    NormalizedFixedPoints(q);
    NoSeparatorPair(q, Space, Dot);
    NoSeparatorPair(q, Dot, Space);
    NoSeparatorPair(q, Dot, Dot);
    NoSeparatorPair(q, Space, Space);
    assert CollapseAll(q) == q;
    SqueezedFixedPoints(q);
  }

  /** A word holds no space and is not a lone dot. */
  lemma WordShape(w: seq<Byte>)
    requires IsWord(w)
    ensures w != [] && Space !in w && w != [Dot]
  {
    assert forall i | 0 <= i < |w| :: w[i] != Space;
    assert w[0] != Dot;
  }

  /** A word followed by a space splits off as the first word. */
  lemma WordsCons(w: seq<Byte>, rest: seq<Byte>)
    requires w != [] && Space !in w
    ensures Words(w + [Space] + rest) == [w] + Words(rest)
  {
    assert w + [Space] + rest == w + ([Space] + rest);
    WordsLead(w, [Space] + rest);
    assert ([Space] + rest)[1..] == rest;
  }

  /** A string without spaces is one word. */
  lemma WordsSingle(w: seq<Byte>)
    requires w != [] && Space !in w
    ensures Words(w) == [w]
  {
    assert w + [] == w;
    WordsLead(w, []);
  }

  /** The full name joined from three words has isolated separators and starts and ends with letters. */
  lemma FullNameShape(s: seq<Byte>, n: seq<Byte>, p: seq<Byte>)
    requires IsWord(s) && IsWord(n) && IsWord(p)
    ensures AllNormal(JoinFull(s, n, p)) && LettersBetweenSeparators(JoinFull(s, n, p))
    ensures IsUpper(JoinFull(s, n, p)[0]) && IsUpper(JoinFull(s, n, p)[|JoinFull(s, n, p)| - 1])
  {
  }

  /** The full name joined from three words splits back into those words. */
  lemma FullNameTokens(s: seq<Byte>, n: seq<Byte>, p: seq<Byte>)
    requires IsWord(s) && IsWord(n) && IsWord(p)
    ensures Tokens(JoinFull(s, n, p)) == [s, n, p]
  {
    WordShape(s);
    WordShape(n);
    WordShape(p);
    WordsSingle(p);
    WordsCons(n, p);
    assert JoinFull(s, n, p) == s + [Space] + (n + [Space] + p);
    WordsCons(s, n + [Space] + p);
    DropLoneDotsKeeps([s, n, p]);
  }

  /** A full name made of three words parses as a full-form query for itself. */
  lemma ParseFullName(s: seq<Byte>, n: seq<Byte>, p: seq<Byte>)
    requires IsWord(s) && IsWord(n) && IsWord(p)
    ensures Parse(JoinFull(s, n, p)) == Valid(Query(false, JoinFull(s, n, p), Hash(JoinFull(s, n, p))))
  {
    FullNameShape(s, n, p);
    CleanedFixed(JoinFull(s, n, p));
    FullNameTokens(s, n, p);
  }

  /** The second token of a short-form query as a record's short name spells it: `N.P.`, or `N.P` without the final dot. */
  predicate IsInitials(t: seq<Byte>)
  {
    && (|t| == 3 || |t| == 4)
    && IsUpper(t[0]) && t[1] == Dot && IsUpper(t[2])
    && (|t| == 4 ==> t[3] == Dot)
  }

  /** A word, a space and initials: isolated separators, no space at either end. */
  lemma InitialsShape(s: seq<Byte>, t: seq<Byte>)
    requires IsWord(s) && IsInitials(t)
    ensures AllNormal(s + [Space] + t) && LettersBetweenSeparators(s + [Space] + t)
    ensures t != [] && Space !in t && t != [Dot] && Dot in t && t[|t| - 1] != Space
  {
    assert t[1] in t;
  }

  /** A word, a space and a second token split back into those two tokens. */
  lemma TwoTokens(s: seq<Byte>, t: seq<Byte>)
    requires IsWord(s) && t != [] && Space !in t && t != [Dot]
    ensures Tokens(s + [Space] + t) == [s, t]
  {
    WordShape(s);
    WordsSingle(t);
    WordsCons(s, t);
    DropLoneDotsKeeps([s, t]);
  }

  /** A word, a space and a second token parse by classifying the two tokens. */
  lemma ParseTwoTokens(s: seq<Byte>, t: seq<Byte>)
    requires IsWord(s) && t != [] && Space !in t && t != [Dot]
    requires AllNormal(s + [Space] + t) && LettersBetweenSeparators(s + [Space] + t)
    requires t[|t| - 1] != Space
    ensures Parse(s + [Space] + t) == Classify([s, t])
  {
    var q := s + [Space] + t;
    assert q[0] == s[0] && IsUpper(s[0]);
    assert q[|q| - 1] == t[|t| - 1];
    CleanedFixed(q);
    TwoTokens(s, t);
  }

  /** Two tokens whose second is initials are a short-form query with the final dot supplied. */
  lemma ClassifyInitials(s: seq<Byte>, t: seq<Byte>)
    requires IsInitials(t)
    ensures var short := s + [Space] + t[..3] + [Dot];
            Classify([s, t]) == Valid(Query(true, short, Hash(short)))
  {
    assert t[1] in t;
    assert IsShortForm([s, t]);
    var short := s + [Space] + t[..3] + [Dot];
    if |t| == 4 {
      assert t == t[..3] + [Dot];
      assert s + [Space] + t == short;
    } else {
      assert t[..3] == t;
    }
  }

  /** A surname followed by initials, with or without the final dot, parses as the short form `SURNAME N.P.`. */
  lemma ParseShortName(s: seq<Byte>, t: seq<Byte>)
    requires IsWord(s) && IsInitials(t)
    ensures var short := s + [Space] + t[..3] + [Dot];
            Parse(s + [Space] + t) == Valid(Query(true, short, Hash(short)))
  {
    InitialsShape(s, t);
    ParseTwoTokens(s, t);
    ClassifyInitials(s, t);
  }

  // ---------------------------------------------------------------------
  // A record is found by its own names
  // ---------------------------------------------------------------------

  /** The scan finds every well-formed record whose selected name is the query string. */
  lemma ScanFinds(records: seq<Record>, q: Query, r: Record)
    requires forall x | x in records :: WellFormed(x)
    requires q.hash == Hash(q.canonical)
    requires r in records && SelectedName(r, q) == q.canonical
    ensures r in Hits(records, q)
  {
    HashFilterIsSound(records, q);
    NameMatchesComplete(records, q, r);
  }

  /**
   * Typing the three fields of a record, separated by single spaces, finds
   * that record, provided each field normalises to a non-empty run of letters.
   */
  lemma FoundByFullName(records: seq<Record>, surname: seq<Byte>, name: seq<Byte>, patronymic: seq<Byte>)
    requires forall x | x in records :: WellFormed(x)
    requires IsWord(Normalized(surname)) && IsWord(Normalized(name)) && IsWord(Normalized(patronymic))
    requires BuildRecord(surname, name, patronymic) in records
    ensures Parse(JoinFull(surname, name, patronymic)).Valid?
    ensures var q := Parse(JoinFull(surname, name, patronymic)).query;
            !q.isShort && BuildRecord(surname, name, patronymic) in Hits(records, q)
  {
    var raw := JoinFull(surname, name, patronymic);
    var s, n, p := Normalized(surname), Normalized(name), Normalized(patronymic);
    NormalizedJoin(surname, name, patronymic);
    ParseFullName(s, n, p);
    NormalizedFixedPoints(JoinFull(s, n, p));
    assert Cleaned(raw) == Cleaned(JoinFull(s, n, p));
    var q := Parse(raw).query;
    ScanFinds(records, q, BuildRecord(surname, name, patronymic));
  }

  /** A short name, or a short name less its final dot, is a surname, a space and initials. */
  lemma TypedShortSplit(s: seq<Byte>, a: Byte, b: Byte, typed: seq<Byte>)
    requires IsUpper(a) && IsUpper(b)
    requires typed == s + [Space, a, Dot, b, Dot] || typed + [Dot] == s + [Space, a, Dot, b, Dot]
    ensures |s| + 1 <= |typed|
    ensures typed == s + [Space] + typed[|s| + 1..]
    ensures IsInitials(typed[|s| + 1..])
    ensures s + [Space] + typed[|s| + 1..][..3] + [Dot] == s + [Space, a, Dot, b, Dot]
  {
    var full := s + [Space, a, Dot, b, Dot];
    if typed != full {
      assert typed == full[..|full| - 1];
    }
  }

  /** Parsing begins by normalising, so a query parses as its normal form does. */
  lemma ParseOfNormalized(query: seq<Byte>)
    ensures Parse(query) == Parse(Normalized(query))
  {
    NormalizedIdempotent(query);
  }

  /**
   * Typing a record's short name, with or without its final dot and in any
   * letter case, finds that record, provided each field normalises to a
   * non-empty run of letters.
   */
  lemma FoundByShortName(records: seq<Record>, surname: seq<Byte>, name: seq<Byte>, patronymic: seq<Byte>, typed: seq<Byte>)
    requires forall x | x in records :: WellFormed(x)
    requires IsWord(Normalized(surname)) && IsWord(Normalized(name)) && IsWord(Normalized(patronymic))
    requires BuildRecord(surname, name, patronymic) in records
    requires Normalized(typed) == BuildRecord(surname, name, patronymic).shortName
          || Normalized(typed) + [Dot] == BuildRecord(surname, name, patronymic).shortName
    ensures Parse(typed).Valid? && Parse(typed).query.isShort
    ensures BuildRecord(surname, name, patronymic) in Hits(records, Parse(typed).query)
  {
    var r := BuildRecord(surname, name, patronymic);
    var s, n, p := Normalized(surname), Normalized(name), Normalized(patronymic);
    var typedNorm := Normalized(typed);
    assert r.shortName == s + [Space, n[0], Dot, p[0], Dot];
    TypedShortSplit(s, n[0], p[0], typedNorm);
    ParseShortName(s, typedNorm[|s| + 1..]);
    ParseOfNormalized(typed);
    ScanFinds(records, Parse(typed).query, r);
  }

  /** A query that normalises to a single word is of invalid format, and no scan happens. */
  lemma OneWordIsInvalid(query: seq<Byte>)
    requires IsWord(Normalized(query))
    ensures Parse(query) == InvalidFormat
  {
    var w := Normalized(query);
    ParseOfNormalized(query);
    CleanedFixed(w);
    WordShape(w);
    WordsSingle(w);
    DropLoneDotsKeeps([w]);
  }
}

=== FILE: matcher.dfy ===
/**
 * The scanning half of `search`: every record is visited; its selected hash
 * is compared with the query's hash and, only when they agree, its selected
 * name with the canonical query string.
 */
module Matcher {
  import opened Bytes
  import opened Djb2
  import opened Records
  import opened QueryParser

  datatype MatchResult = MatchResult(matches: seq<Record>, hashComparisons: nat, stringComparisons: nat)

  /** `short_hash` for a short-form query, `full_hash` otherwise. */
  function SelectedHash(r: Record, q: Query): U32
  {
    if q.isShort then r.shortHash else r.fullHash
  }

  /** `short_name` for a short-form query, `full_name` otherwise. */
  function SelectedName(r: Record, q: Query): seq<Byte>
  {
    if q.isShort then r.shortName else r.fullName
  }

  /** The number of records whose selected hash equals the query hash. */
  function HashHits(records: seq<Record>, q: Query): (n: nat)
    ensures n <= |records|
  {
    if records == [] then 0
    else HashHits(records[..|records| - 1], q)
         + (if SelectedHash(records[|records| - 1], q) == q.hash then 1 else 0)
  }

  /** The records that pass both the hash test and the string test, in scan order. */
  function Hits(records: seq<Record>, q: Query): (m: seq<Record>)
    ensures |m| <= HashHits(records, q)
    ensures forall r | r in m :: r in records && SelectedName(r, q) == q.canonical
  {
    if records == [] then []
    else
      var r := records[|records| - 1];
      Hits(records[..|records| - 1], q)
      + (if SelectedHash(r, q) == q.hash && SelectedName(r, q) == q.canonical then [r] else [])
  }

  /** The records whose selected name equals the canonical query, in directory order. */
  function NameMatches(records: seq<Record>, q: Query): seq<Record>
  {
    if records == [] then []
    else
      var r := records[|records| - 1];
      NameMatches(records[..|records| - 1], q) + (if SelectedName(r, q) == q.canonical then [r] else [])
  }

  /**
   * The hash test never rejects a real match: when every record stores the
   * hashes of its own names and the query carries the hash of its own string,
   * the scan finds exactly the records whose selected name is the query string.
   */
  lemma {:induction false} HashFilterIsSound(records: seq<Record>, q: Query)
    requires forall r | r in records :: WellFormed(r)
    requires q.hash == Hash(q.canonical)
    ensures Hits(records, q) == NameMatches(records, q)
    decreases |records|
  {
    if records != [] {
      var init, last := records[..|records| - 1], records[|records| - 1];
      assert forall r | r in init :: r in records;
      HashFilterIsSound(init, q);
      assert WellFormed(last);
      assert SelectedHash(last, q) == Hash(SelectedName(last, q));
    }
  }

  /** Every record whose selected name is the query string is among the name matches. */
  lemma {:induction false} NameMatchesComplete(records: seq<Record>, q: Query, r: Record)
    requires r in records && SelectedName(r, q) == q.canonical
    ensures r in NameMatches(records, q)
    decreases |records|
  {
    var init := records[..|records| - 1];
    if r != records[|records| - 1] {
      assert r in init;
      NameMatchesComplete(init, q, r);
    }
  }

  /** The scan loop of `search`, with its two counters. */
  method Match(records: seq<Record>, q: Query) returns (res: MatchResult)
    ensures res.hashComparisons == |records|
    ensures res.stringComparisons == HashHits(records, q)
    ensures res.matches == Hits(records, q)
  {
    var matches: seq<Record> := [];
    var hashComparisons := 0;
    var stringComparisons := 0;
    for i := 0 to |records|
      invariant hashComparisons == i
      invariant stringComparisons == HashHits(records[..i], q)
      invariant matches == Hits(records[..i], q)
    {
      assert records[..i + 1][..i] == records[..i];
      var record := records[i];
      hashComparisons := hashComparisons + 1;
      if q.isShort {
        if record.shortHash == q.hash {
          stringComparisons := stringComparisons + 1;
          if record.shortName == q.canonical {
            matches := matches + [record];
          }
        }
      } else {
        if record.fullHash == q.hash {
          stringComparisons := stringComparisons + 1;
          if record.fullName == q.canonical {
            matches := matches + [record];
          }
        }
      }
    }
    assert records[..|records|] == records;
    res := MatchResult(matches, hashComparisons, stringComparisons);
  }
}

=== FILE: normalize.dfy ===
/**
 * `normalize`: keep `.` and space, keep letters in upper case, drop every
 * other byte, preserving order.
 */
module Normalizer {
  import opened Bytes

  /** The bytes `normalize` can produce. */
  predicate IsNormal(c: Byte) { c == Dot || c == Space || IsUpper(c) }

  predicate AllNormal(s: seq<Byte>) { forall i | 0 <= i < |s| :: IsNormal(s[i]) }

  /** What one input byte contributes to the result. */
  function Keep(c: Byte): (r: seq<Byte>)
    ensures |r| <= 1
    ensures AllNormal(r)
    ensures IsNormal(c) ==> r == [c]
    ensures IsAlpha(c) ==> r == [ToUpper(c)]
    ensures !IsNormal(c) && !IsAlpha(c) ==> r == []
  {
    if c == Dot || c == Space then [c]
    else if IsAlpha(c) then [ToUpper(c)]
    else []
  }

  /** The result of `normalize`, defined the way the loop builds it: by appending. */
  function Normalized(s: seq<Byte>): (r: seq<Byte>)
    ensures |r| <= |s|
    ensures AllNormal(r)
    decreases |s|
  {
    if s == [] then [] else Normalized(s[..|s| - 1]) + Keep(s[|s| - 1])
  }

  /** A one-byte string normalises to what that byte contributes. */
  lemma NormalizedSingle(c: Byte)
    ensures Normalized([c]) == Keep(c)
  {
    assert [c][..0] == [];
  }

  /** Normalising a concatenation normalises each part: no byte looks at its neighbours. */
  lemma {:induction false} NormalizedConcat(a: seq<Byte>, b: seq<Byte>)
    ensures Normalized(a + b) == Normalized(a) + Normalized(b)
    decreases |b|
  {
    if b == [] {
      assert a + b == a;
    } else {
      var b' := b[..|b| - 1];
      assert (a + b)[..|a + b| - 1] == a + b';
      NormalizedConcat(a, b');
    }
  }

  /** The fixed points of `normalize` are exactly the strings of dots, spaces and upper-case letters. */
  lemma {:induction false} NormalizedFixedPoints(s: seq<Byte>)
    ensures Normalized(s) == s <==> AllNormal(s)
    decreases |s|
  {
    if s != [] && AllNormal(s) {
      NormalizedFixedPoints(s[..|s| - 1]);
      assert s[..|s| - 1] + [s[|s| - 1]] == s;
    }
  }

  /** Applying `normalize` twice gives the same result as applying it once. */
  lemma NormalizedIdempotent(s: seq<Byte>)
    ensures Normalized(Normalized(s)) == Normalized(s)
  {
    NormalizedFixedPoints(Normalized(s));
  }

  /** `normalize` as the loop it is. */
  method Normalize(s: seq<Byte>) returns (result: seq<Byte>)
    ensures result == Normalized(s)
  {
    result := [];
    for i := 0 to |s|
      invariant result == Normalized(s[..i])
    {
      assert s[..i + 1][..i] == s[..i];
      var c := s[i];
      if c == Dot || c == Space {
        result := result + [c];
      } else if IsAlpha(c) {
        result := result + [ToUpper(c)];
      }
    }
    assert s[..|s|] == s;
  }
}

=== FILE: query_parser.dfy ===
/**
 * The parsing half of `search`: normalise the query, collapse `" ."`,
 * `". "` and `".."` to `"."` (three exhaustive passes, in that order),
 * squeeze runs of spaces, trim, split on spaces dropping lone `"."`
 * tokens, and classify the tokens as a short-form query, a full-form query
 * or an invalid one.
 */
module QueryParser {
  import opened Bytes
  import opened Djb2
  import opened Normalizer

  // ---------------------------------------------------------------------
  // Two-byte patterns and `std::string::find`
  // ---------------------------------------------------------------------

  /** The pattern `x y` starts at index `i` of `s`. */
  predicate PairAt(s: seq<Byte>, x: Byte, y: Byte, i: int)
  {
    0 <= i < |s| - 1 && s[i] == x && s[i + 1] == y
  }

  predicate HasPair(s: seq<Byte>, x: Byte, y: Byte)
  {
    exists i | 0 <= i < |s| - 1 :: PairAt(s, x, y, i)
  }

  /** `find` of the pattern `x y`, starting its scan at `k`. */
  function FindPairFrom(s: seq<Byte>, x: Byte, y: Byte, k: nat): (r: Option<nat>)
    requires forall i | 0 <= i < k :: !PairAt(s, x, y, i)
    ensures r.Some? ==> PairAt(s, x, y, r.value)
    ensures r.Some? ==> forall i | 0 <= i < r.value :: !PairAt(s, x, y, i)
    ensures r.None? <==> !HasPair(s, x, y)
    decreases |s| - k
  {
    if k + 1 >= |s| then None
    else if s[k] == x && s[k + 1] == y then
      assert PairAt(s, x, y, k);
      Some(k)
    else FindPairFrom(s, x, y, k + 1)
  }

  /** `find` of the pattern `x y`: its first occurrence, or `npos` as `None`. */
  function FindPair(s: seq<Byte>, x: Byte, y: Byte): (r: Option<nat>)
    ensures r.Some? ==> PairAt(s, x, y, r.value)
    ensures r.Some? ==> forall i | 0 <= i < r.value :: !PairAt(s, x, y, i)
    ensures r.None? <==> !HasPair(s, x, y)
  {
    FindPairFrom(s, x, y, 0)
  }

  /** `replace(i, 2, ".")`. */
  function ReplaceAt(s: seq<Byte>, i: nat): (r: seq<Byte>)
    requires i < |s| - 1
    ensures |r| == |s| - 1
    ensures r[..i] == s[..i] && r[i] == Dot && r[i + 1..] == s[i + 2..]
  {
    s[..i] + [Dot] + s[i + 2..]
  }

  /** The upper-case letters of `s`, in order. */
  function Letters(s: seq<Byte>): seq<Byte>
  {
    if s == [] then [] else (if IsUpper(s[0]) then [s[0]] else []) + Letters(s[1..])
  }

  lemma {:induction false} LettersConcat(a: seq<Byte>, b: seq<Byte>)
    ensures Letters(a + b) == Letters(a) + Letters(b)
    decreases |a|
  {
    if a == [] {
      assert a + b == b;
    } else {
      var head := if IsUpper(a[0]) then [a[0]] else [];
      assert (a + b)[0] == a[0] && (a + b)[1..] == a[1..] + b;
      assert Letters(a + b) == head + Letters(a[1..] + b);
      LettersConcat(a[1..], b);
      assert Letters(a) == head + Letters(a[1..]);
    }
  }

  /** `s` without its bytes equal to `b`, in order. */
  function Drop(s: seq<Byte>, b: Byte): seq<Byte>
  {
    if s == [] then [] else (if s[0] == b then [] else [s[0]]) + Drop(s[1..], b)
  }

  lemma {:induction false} DropConcat(a: seq<Byte>, b: seq<Byte>, d: Byte)
    ensures Drop(a + b, d) == Drop(a, d) + Drop(b, d)
    decreases |a|
  {
    if a == [] {
      assert a + b == b;
    } else {
      var head := if a[0] == d then [] else [a[0]];
      assert (a + b)[0] == a[0] && (a + b)[1..] == a[1..] + b;
      assert Drop(a + b, d) == head + Drop(a[1..] + b, d);
      DropConcat(a[1..], b, d);
      assert Drop(a, d) == head + Drop(a[1..], d);
    }
  }

  /** The byte of the pair `x y` that `replace` deletes: the one that is not `.` (one of the dots for `..`). */
  function Deleted(x: Byte, y: Byte): Byte
  {
    if x == Dot then y else x
  }

  /**
   * Replacing a pair that holds a dot by `.` deletes exactly one byte, the
   * other one: every byte except that one survives, in order.
   */
  lemma ReplaceDrops(s: seq<Byte>, i: nat, x: Byte, y: Byte)
    requires PairAt(s, x, y, i) && (x == Dot || y == Dot)
    ensures Drop(ReplaceAt(s, i), Deleted(x, y)) == Drop(s, Deleted(x, y))
  {
    var d := Deleted(x, y);
    var pre, post := s[..i], s[i + 2..];
    assert s == pre + [x, y] + post;
    assert ReplaceAt(s, i) == pre + [Dot] + post;
    DropConcat(pre + [x, y], post, d);
    DropConcat(pre, [x, y], d);
    DropConcat(pre + [Dot], post, d);
    DropConcat(pre, [Dot], d);
    assert [x, y][1..] == [y] && [y][1..] == [] && [Dot][1..] == [];
    assert Drop([x, y], d) == Drop([Dot], d);
  }

  /** Replacing a pair of non-letters by `.` keeps every letter, in order. */
  lemma ReplaceKeepsLetters(s: seq<Byte>, i: nat)
    requires i < |s| - 1
    requires !IsUpper(s[i]) && !IsUpper(s[i + 1])
    ensures Letters(ReplaceAt(s, i)) == Letters(s)
  {
    var pre, post := s[..i], s[i + 2..];
    assert s == pre + [s[i], s[i + 1]] + post;
    assert ReplaceAt(s, i) == pre + [Dot] + post;
    LettersConcat(pre + [s[i], s[i + 1]], post);
    LettersConcat(pre, [s[i], s[i + 1]]);
    LettersConcat(pre + [Dot], post);
    LettersConcat(pre, [Dot]);
    assert [s[i], s[i + 1]][1..] == [s[i + 1]];
    assert Letters([s[i], s[i + 1]]) == [];
    assert Letters([Dot]) == [];
  }

  // ---------------------------------------------------------------------
  // The three collapse loops
  // ---------------------------------------------------------------------

  /** What one collapse loop leaves: the first `x y` replaced by `.` until none is left. */
  function Collapsed(s: seq<Byte>, x: Byte, y: Byte): (r: seq<Byte>)
    ensures !HasPair(r, x, y)
    ensures |r| <= |s|
    ensures !HasPair(s, x, y) ==> r == s
    ensures !IsUpper(x) && !IsUpper(y) ==> Letters(r) == Letters(s)
    ensures x == Dot || y == Dot ==> Drop(r, Deleted(x, y)) == Drop(s, Deleted(x, y))
    decreases |s|
  {
    match FindPair(s, x, y)
    case None => s
    case Some(i) =>
      ReplaceKeeps(s, i, x, y);
      Collapsed(ReplaceAt(s, i), x, y)
  }

  /** What one replacement keeps, for whichever kind of pattern `x y` is. */
  lemma ReplaceKeeps(s: seq<Byte>, i: nat, x: Byte, y: Byte)
    requires PairAt(s, x, y, i)
    ensures !IsUpper(x) && !IsUpper(y) ==> Letters(ReplaceAt(s, i)) == Letters(s)
    ensures x == Dot || y == Dot ==> Drop(ReplaceAt(s, i), Deleted(x, y)) == Drop(s, Deleted(x, y))
  {
    if !IsUpper(x) && !IsUpper(y) {
      ReplaceKeepsLetters(s, i);
    }
    if x == Dot || y == Dot {
      ReplaceDrops(s, i, x, y);
    }
  }

  /** One collapse loop: `while ((pos = find(xy)) != npos) replace(pos, 2, ".")`. */
  method CollapsePairs(s: seq<Byte>, x: Byte, y: Byte) returns (r: seq<Byte>)
    ensures r == Collapsed(s, x, y)
  {
    r := s;
    var pos := FindPair(r, x, y);
    while pos.Some?
      invariant pos == FindPair(r, x, y)
      invariant Collapsed(r, x, y) == Collapsed(s, x, y)
      decreases |r|
    {
      r := ReplaceAt(r, pos.value);
      pos := FindPair(r, x, y);
    }
  }

  /** The three loops in the order the source runs them. */
  function CollapseAll(s: seq<Byte>): seq<Byte>
  {
    Collapsed(Collapsed(Collapsed(s, Space, Dot), Dot, Space), Dot, Dot)
  }

  /**
   * Replacing a `.`-led pair by `.` creates no pattern `a b` that was absent,
   * provided the pair is `..` or the pattern does not start with a dot.
   */
  lemma ReplacePreserves(s: seq<Byte>, i: nat, y: Byte, a: Byte, b: Byte)
    requires PairAt(s, Dot, y, i)
    requires y == Dot || a != Dot
    requires !HasPair(s, a, b)
    ensures !HasPair(ReplaceAt(s, i), a, b)
  {
    var t := ReplaceAt(s, i);
    forall k | 0 <= k < |t| - 1
      ensures !PairAt(t, a, b, k)
    {
      if k + 1 <= i {
        assert t[k] == s[k] && t[k + 1] == s[k + 1];
        assert !PairAt(s, a, b, k);
      } else if k == i {
        assert t[k] == Dot && t[k + 1] == s[k + 2];
        assert !PairAt(s, a, b, k + 1);
      } else {
        assert t[k] == s[k + 1] && t[k + 1] == s[k + 2];
        assert !PairAt(s, a, b, k + 1);
      }
    }
  }

  /** A later collapse pass (one whose pattern starts with `.`) never re-creates an earlier pattern. */
  lemma {:induction false} CollapsePreserves(s: seq<Byte>, y: Byte, a: Byte, b: Byte)
    requires y == Dot || a != Dot
    requires !HasPair(s, a, b)
    ensures !HasPair(Collapsed(s, Dot, y), a, b)
    decreases |s|
  {
    match FindPair(s, Dot, y)
    case None =>
    case Some(i) =>
      ReplacePreserves(s, i, y, a, b);
      CollapsePreserves(ReplaceAt(s, i), y, a, b);
  }

  /** After the three loops none of `" ."`, `". "` and `".."` occurs. */
  lemma CollapseAllClean(s: seq<Byte>)
    ensures !HasPair(CollapseAll(s), Space, Dot)
    ensures !HasPair(CollapseAll(s), Dot, Space)
    ensures !HasPair(CollapseAll(s), Dot, Dot)
  {
    var s1 := Collapsed(s, Space, Dot);
    var s2 := Collapsed(s1, Dot, Space);
    CollapsePreserves(s1, Space, Space, Dot);
    CollapsePreserves(s2, Dot, Space, Dot);
    CollapsePreserves(s2, Dot, Dot, Space);
  }

  // ---------------------------------------------------------------------
  // Squeezing runs of spaces: `erase(unique(..., both are spaces))`
  // ---------------------------------------------------------------------

  /** Appending `c` to a string without `x y` creates none unless it completes one. */
  lemma NoPairSnoc(p: seq<Byte>, c: Byte, x: Byte, y: Byte)
    requires !HasPair(p, x, y)
    requires p == [] || !(p[|p| - 1] == x && c == y)
    ensures !HasPair(p + [c], x, y)
  {
    var t := p + [c];
    forall k | 0 <= k < |t| - 1
      ensures !PairAt(t, x, y, k)
    {
      if k < |p| - 1 {
        assert !PairAt(p, x, y, k);
      }
    }
  }

  /** `std::unique` keeps a byte unless it and the last byte kept are both spaces. */
  function Squeezed(s: seq<Byte>): (r: seq<Byte>)
    ensures |r| <= |s|
    ensures !HasPair(r, Space, Space)
    ensures s != [] ==> r != [] && r[|r| - 1] == s[|s| - 1]
    decreases |s|
  {
    if s == [] then []
    else
      var p := Squeezed(s[..|s| - 1]);
      var c := s[|s| - 1];
      if p != [] && p[|p| - 1] == Space && c == Space then p
      else
        NoPairSnoc(p, c, Space, Space);
        p + [c]
  }

  /** Squeezing changes exactly the strings that hold two adjacent spaces. */
  lemma {:induction false} SqueezedFixedPoints(s: seq<Byte>)
    ensures Squeezed(s) == s <==> !HasPair(s, Space, Space)
    decreases |s|
  {
    if s != [] && !HasPair(s, Space, Space) {
      var s' := s[..|s| - 1];
      if HasPair(s', Space, Space) {
        var k :| 0 <= k < |s'| - 1 && PairAt(s', Space, Space, k);
        assert s[k] == s'[k] && s[k + 1] == s'[k + 1];
        assert PairAt(s, Space, Space, k);
      }
      SqueezedFixedPoints(s');
      if |s| >= 2 {
        assert !PairAt(s, Space, Space, |s| - 2);
      }
      assert s' + [s[|s| - 1]] == s;
    }
  }

  /** The `erase(unique(...))` step as the loop `std::unique` runs. */
  method SqueezeSpaces(s: seq<Byte>) returns (r: seq<Byte>)
    ensures r == Squeezed(s)
  {
    r := [];
    for i := 0 to |s|
      invariant r == Squeezed(s[..i])
    {
      assert s[..i + 1][..i] == s[..i];
      if !(r != [] && r[|r| - 1] == Space && s[i] == Space) {
        r := r + [s[i]];
      }
    }
    assert s[..|s|] == s;
  }

  // ---------------------------------------------------------------------
  // Trimming: `find_first_not_of(" ")`, `find_last_not_of(" ")`, `substr`
  // ---------------------------------------------------------------------

  predicate AllSpaces(s: seq<Byte>)
  {
    forall i | 0 <= i < |s| :: s[i] == Space
  }

  /** `find_first_not_of(" ")`, with `npos` read as `|s|`. */
  function FirstNonSpace(s: seq<Byte>): (k: nat)
    ensures k <= |s|
    ensures AllSpaces(s[..k])
    ensures k < |s| ==> s[k] != Space
  {
    if s == [] || s[0] != Space then 0
    else
      var k := FirstNonSpace(s[1..]);
      assert s[..k + 1] == [s[0]] + s[1..][..k];
      k + 1
  }

  /** One past `find_last_not_of(" ")`, with `npos` read as `0`. */
  function EndOfNonSpace(s: seq<Byte>): (k: nat)
    ensures k <= |s|
    ensures AllSpaces(s[k..])
    ensures k > 0 ==> s[k - 1] != Space
  {
    if s == [] || s[|s| - 1] != Space then |s|
    else
      var k := EndOfNonSpace(s[..|s| - 1]);
      assert s[k..] == s[..|s| - 1][k..] + [s[|s| - 1]];
      k
  }

  /** The trim step: unchanged when the string is all spaces (both finds give `npos`). */
  function Trimmed(s: seq<Byte>): (r: seq<Byte>)
    ensures |r| <= |s|
    ensures AllSpaces(s) ==> r == s
    ensures !AllSpaces(s) ==> r != [] && r[0] != Space && r[|r| - 1] != Space
    ensures s == [] || (s[0] != Space && s[|s| - 1] != Space) ==> r == s
  {
    var start := FirstNonSpace(s);
    if start == |s| then s
    else
      var end := EndOfNonSpace(s);
      assert start < end;
      s[start..end]
  }

  /** Trimming removes only leading and trailing spaces: the input is the result with spaces around it. */
  lemma TrimmedStripsSpaces(s: seq<Byte>)
    ensures exists a, b | AllSpaces(a) && AllSpaces(b) :: s == a + Trimmed(s) + b
  {
    var start := FirstNonSpace(s);
    if start == |s| {
      assert AllSpaces([]) && s == [] + Trimmed(s) + [];
    } else {
      var end := EndOfNonSpace(s);
      var a, b := s[..start], s[end..];
      assert AllSpaces(a) && AllSpaces(b) && s == a + Trimmed(s) + b;
    }
  }

  // ---------------------------------------------------------------------
  // Tokens: `while (iss >> part) if (part != ".") query_parts.push_back(part)`
  // ---------------------------------------------------------------------

  /** Length of the leading run of non-space bytes. */
  function Span(s: seq<Byte>): (k: nat)
    ensures k <= |s|
    ensures forall i | 0 <= i < k :: s[i] != Space
    ensures k < |s| ==> s[k] == Space
    ensures s != [] && s[0] != Space ==> k > 0
  {
    if s == [] || s[0] == Space then 0 else 1 + Span(s[1..])
  }

  /** `Span` is the only length with its two properties. */
  lemma SpanUnique(s: seq<Byte>, k: nat)
    requires k <= |s|
    requires forall i | 0 <= i < k :: s[i] != Space
    requires k < |s| ==> s[k] == Space
    ensures Span(s) == k
  {
  }

  /** The words `>>` extracts: maximal runs of non-space bytes, in order. */
  function Words(s: seq<Byte>): (ws: seq<seq<Byte>>)
    ensures forall w | w in ws :: w != [] && Space !in w
    decreases |s|
  {
    if s == [] then []
    else if s[0] == Space then Words(s[1..])
    else
      var k := Span(s);
      [s[..k]] + Words(s[k..])
  }

  /** The words, without those that are a lone `.`. */
  function DropLoneDots(ws: seq<seq<Byte>>): (ts: seq<seq<Byte>>)
    ensures forall t | t in ts :: t in ws && t != [Dot]
    ensures forall w | w in ws && w != [Dot] :: w in ts
  {
    if ws == [] then []
    else (if ws[0] == [Dot] then [] else [ws[0]]) + DropLoneDots(ws[1..])
  }

  /** A word list without lone dots passes through unchanged. */
  lemma {:induction false} DropLoneDotsKeeps(ws: seq<seq<Byte>>)
    requires forall w | w in ws :: w != [Dot]
    ensures DropLoneDots(ws) == ws
    decreases |ws|
  {
    if ws != [] {
      assert ws[0] in ws;
      assert forall w | w in ws[1..] :: w in ws;
      DropLoneDotsKeeps(ws[1..]);
      assert [ws[0]] + ws[1..] == ws;
    }
  }

  /** `query_parts`. */
  function Tokens(s: seq<Byte>): (ts: seq<seq<Byte>>)
    ensures forall t | t in ts :: t != [] && Space !in t && t != [Dot]
  {
    DropLoneDots(Words(s))
  }

  /** A leading space contributes no token. */
  lemma TokensSkipSpace(s: seq<Byte>, i: nat)
    requires i < |s| && s[i] == Space
    ensures Tokens(s[i..]) == Tokens(s[i + 1..])
  {
    assert s[i..][1..] == s[i + 1..];
  }

  /** A maximal run `s[i..j]` of non-space bytes is the next token unless it is a lone dot. */
  lemma TokensSplitWord(s: seq<Byte>, i: nat, j: nat)
    requires i < j <= |s|
    requires forall k | i <= k < j :: s[k] != Space
    requires j < |s| ==> s[j] == Space
    ensures Tokens(s[i..]) == (if s[i..j] == [Dot] then [] else [s[i..j]]) + Tokens(s[j..])
  {
    SpanUnique(s[i..], j - i);
    assert s[i..][..j - i] == s[i..j];
    assert s[i..][j - i..] == s[j..];
    assert Words(s[i..]) == [s[i..j]] + Words(s[j..]);
    assert ([s[i..j]] + Words(s[j..]))[1..] == Words(s[j..]);
  }

  /** The token loop; each `iss >> part` skips spaces and then reads up to the next space. */
  method Tokenize(s: seq<Byte>) returns (parts: seq<seq<Byte>>)
    ensures parts == Tokens(s)
  {
    parts := [];
    var i := 0;
    while i < |s|
      invariant 0 <= i <= |s|
      invariant parts + Tokens(s[i..]) == Tokens(s)
    {
      if s[i] == Space {
        TokensSkipSpace(s, i);
        i := i + 1;
      } else {
        var j := i;
        while j < |s| && s[j] != Space
          invariant i <= j <= |s|
          invariant forall k | i <= k < j :: s[k] != Space
        {
          j := j + 1;
        }
        var part := s[i..j];
        TokensSplitWord(s, i, j);
        if part != [Dot] {
          parts := parts + [part];
        }
        i := j;
      }
    }
  }

  // ---------------------------------------------------------------------
  // Squeezing and trimming never change what `>>` reads
  // ---------------------------------------------------------------------

  /** A space-free word followed by the end or a space is read off as the first word. */
  lemma WordsLead(w: seq<Byte>, rest: seq<Byte>)
    requires w != [] && Space !in w
    requires rest == [] || rest[0] == Space
    ensures Words(w + rest) == [w] + Words(rest)
  {
    var s := w + rest;
    assert forall i | 0 <= i < |w| :: s[i] == w[i] && w[i] in w;
    SpanUnique(s, |w|);
    assert s[..|w|] == w && s[|w|..] == rest;
  }

  /** Spaces alone hold no word. */
  lemma {:induction false} WordsOfSpaces(b: seq<Byte>)
    requires AllSpaces(b)
    ensures Words(b) == []
    decreases |b|
  {
    if b != [] {
      WordsOfSpaces(b[1..]);
    }
  }

  /** Leading spaces hold no word. */
  lemma {:induction false} WordsLeadingSpaces(a: seq<Byte>, r: seq<Byte>)
    requires AllSpaces(a)
    ensures Words(a + r) == Words(r)
    decreases |a|
  {
    if a == [] {
      assert a + r == r;
    } else {
      assert (a + r)[1..] == a[1..] + r;
      WordsLeadingSpaces(a[1..], r);
    }
  }

  /** Trailing spaces hold no word. */
  lemma {:induction false} WordsTrailingSpaces(x: seq<Byte>, b: seq<Byte>)
    requires AllSpaces(b)
    ensures Words(x + b) == Words(x)
    decreases |x|
  {
    if x == [] {
      assert x + b == b;
      WordsOfSpaces(b);
    } else if x[0] == Space {
      assert (x + b)[1..] == x[1..] + b;
      WordsTrailingSpaces(x[1..], b);
    } else {
      var k := Span(x);
      var w, tail := x[..k], x[k..];
      assert x == w + tail && x + b == w + (tail + b);
      assert Space !in w by {
        forall i | 0 <= i < |w| ensures w[i] != Space { assert w[i] == x[i]; }
      }
      WordsLead(w, tail + b);
      WordsLead(w, tail);
      WordsTrailingSpaces(tail, b);
    }
  }

  /** Dropping one space of a double space changes no word. */
  lemma {:induction false} WordsDoubleSpace(a: seq<Byte>, b: seq<Byte>)
    ensures Words(a + [Space, Space] + b) == Words(a + [Space] + b)
    decreases |a|
  {
    if a == [] {
      assert a + [Space, Space] + b == [Space] + ([Space] + b);
      assert a + [Space] + b == [Space] + b;
    } else if a[0] == Space {
      assert (a + [Space, Space] + b)[1..] == a[1..] + [Space, Space] + b;
      assert (a + [Space] + b)[1..] == a[1..] + [Space] + b;
      WordsDoubleSpace(a[1..], b);
    } else {
      var k := Span(a);
      var w, tail := a[..k], a[k..];
      assert Space !in w by {
        forall i | 0 <= i < |w| ensures w[i] != Space { assert w[i] == a[i]; }
      }
      assert a + [Space, Space] + b == w + (tail + [Space, Space] + b);
      assert a + [Space] + b == w + (tail + [Space] + b);
      WordsLead(w, tail + [Space, Space] + b);
      WordsLead(w, tail + [Space] + b);
      WordsDoubleSpace(tail, b);
    }
  }

  /** Squeezing a prefix changes no word, whatever follows it. */
  lemma {:induction false} SqueezedWords(s: seq<Byte>, t: seq<Byte>)
    ensures Words(Squeezed(s) + t) == Words(s + t)
    decreases |s|
  {
    if s == [] {
      assert Squeezed(s) + t == t && s + t == t;
    } else {
      var s', c := s[..|s| - 1], s[|s| - 1];
      var p := Squeezed(s');
      assert s + t == s' + ([c] + t);
      SqueezedWords(s', [c] + t);
      if p != [] && p[|p| - 1] == Space && c == Space {
        assert Squeezed(s) == p;
        var q := p[..|p| - 1];
        assert p == q + [Space];
        SpaceAfterSpace(q, t);
      } else {
        assert Squeezed(s) == p + [c];
        assert (p + [c]) + t == p + ([c] + t);
      }
    }
  }

  /** A space right after a space changes no word. */
  lemma SpaceAfterSpace(q: seq<Byte>, t: seq<Byte>)
    ensures Words(q + [Space] + ([Space] + t)) == Words(q + [Space] + t)
  {
    assert q + [Space] + ([Space] + t) == q + [Space, Space] + t;
    WordsDoubleSpace(q, t);
  }

  /** `erase(unique(...))` does not change the tokens. */
  lemma SqueezedKeepsTokens(s: seq<Byte>)
    ensures Tokens(Squeezed(s)) == Tokens(s)
  {
    SqueezedWords(s, []);
    assert Squeezed(s) + [] == Squeezed(s) && s + [] == s;
  }

  /** The trim step does not change the tokens. */
  lemma TrimmedKeepsTokens(s: seq<Byte>)
    ensures Tokens(Trimmed(s)) == Tokens(s)
  {
    var r := Trimmed(s);
    TrimmedStripsSpaces(s);
    var a, b :| AllSpaces(a) && AllSpaces(b) && s == a + r + b;
    assert s == a + (r + b);
    calc {
      Words(s);
      { WordsLeadingSpaces(a, r + b); }
      Words(r + b);
      { WordsTrailingSpaces(r, b); }
      Words(r);
    }
  }

  // ---------------------------------------------------------------------
  // Classification
  // ---------------------------------------------------------------------

  /** A parsed query: which stored name to compare against, the string and its hash. */
  datatype Query = Query(isShort: bool, canonical: seq<Byte>, hash: U32)

  datatype ParseResult = InvalidFormat | Valid(query: Query)

  /** `is_short_form`. */
  predicate IsShortForm(parts: seq<seq<Byte>>)
  {
    |parts| == 2 && (|parts[1]| == 3 || |parts[1]| == 4) && Dot in parts[1]
  }

  /** The canonical string and hash for the token list, or `InvalidFormat`. */
  function Classify(parts: seq<seq<Byte>>): (r: ParseResult)
    ensures r == InvalidFormat <==> |parts| < 2 || (|parts| == 2 && !IsShortForm(parts))
    ensures r.Valid? ==> r.query.isShort == IsShortForm(parts)
    ensures r.Valid? ==> r.query.hash == Hash(r.query.canonical)
    ensures r.Valid? && r.query.isShort ==>
              r.query.canonical == parts[0] + [Space] + parts[1] + (if |parts[1]| == 3 then [Dot] else [])
    ensures r.Valid? && !r.query.isShort ==>
              r.query.canonical == parts[0] + [Space] + parts[1] + [Space] + parts[2]
  {
    if IsShortForm(parts) then
      var second := if |parts[1]| == 3 then parts[1] + [Dot] else parts[1];
      var canonical := parts[0] + [Space] + second;
      Valid(Query(true, canonical, Hash(canonical)))
    else if |parts| >= 3 then
      var canonical := parts[0] + [Space] + parts[1] + [Space] + parts[2];
      Valid(Query(false, canonical, Hash(canonical)))
    else
      InvalidFormat
  }

  /** The query string after every rewriting step, before it is split. */
  function Cleaned(query: seq<Byte>): seq<Byte>
  {
    Trimmed(Squeezed(CollapseAll(Normalized(query))))
  }

  /** The parsing half of `search`. */
  function Parse(query: seq<Byte>): ParseResult
  {
    Classify(Tokens(Cleaned(query)))
  }

  /** The parsing half of `search`, step by step as the source runs it. */
  method ParseQuery(query: seq<Byte>) returns (r: ParseResult)
    ensures r == Parse(query)
  {
    var normQuery := Normalize(query);
    normQuery := CollapsePairs(normQuery, Space, Dot);
    normQuery := CollapsePairs(normQuery, Dot, Space);
    normQuery := CollapsePairs(normQuery, Dot, Dot);
    normQuery := SqueezeSpaces(normQuery);
    normQuery := Trimmed(normQuery);
    var queryParts := Tokenize(normQuery);

    var isShortForm := |queryParts| == 2
                       && (|queryParts[1]| == 3 || |queryParts[1]| == 4)
                       && Dot in queryParts[1];
    var searchQuery: seq<Byte>;
    if isShortForm {
      if |queryParts[1]| == 3 {
        queryParts := queryParts[1 := queryParts[1] + [Dot]];
      }
      searchQuery := queryParts[0] + [Space] + queryParts[1];
    } else if |queryParts| >= 3 {
      searchQuery := queryParts[0] + [Space] + queryParts[1] + [Space] + queryParts[2];
    } else {
      return InvalidFormat;
    }
    var queryHash := HashString(searchQuery);
    r := Valid(Query(isShortForm, searchQuery, queryHash));
  }
}

=== FILE: records.dfy ===
/**
 * `Record` and how one is built from a (surname, name, patronymic) triple:
 * `make_short_name`, the body of the record-building loop in `main`, and
 * `Record::operator<`.
 */
module Records {
  import opened Bytes
  import opened Djb2
  import opened Normalizer

  datatype Record = Record(fullName: seq<Byte>, shortName: seq<Byte>, fullHash: U32, shortHash: U32)

  /** The stored hashes are the hashes of the stored names. */
  predicate WellFormed(r: Record)
  {
    r.fullHash == Hash(r.fullName) && r.shortHash == Hash(r.shortName)
  }

  /** `surname + " " + name + " " + patronymic`. */
  function JoinFull(surname: seq<Byte>, name: seq<Byte>, patronymic: seq<Byte>): seq<Byte>
  {
    surname + [Space] + name + [Space] + patronymic
  }

  /** `make_short_name`: the surname, then the two initials each followed by a dot. */
  function ShortName(surname: seq<Byte>, name: seq<Byte>, patronymic: seq<Byte>): (r: seq<Byte>)
    ensures |surname| <= |r| && r[..|surname|] == surname
    ensures name == [] || patronymic == [] ==> r == surname
    ensures name != [] && patronymic != [] ==>
              |r| == |surname| + 5 && r[|surname|..] == [Space, name[0], Dot, patronymic[0], Dot]
  {
    if name == [] || patronymic == [] then surname
    else surname + [Space, name[0], Dot, patronymic[0], Dot]
  }

  /** The record the loop in `main` pushes for one triple. */
  function BuildRecord(surname: seq<Byte>, name: seq<Byte>, patronymic: seq<Byte>): (r: Record)
    ensures WellFormed(r)
    ensures r.fullName == JoinFull(Normalized(surname), Normalized(name), Normalized(patronymic))
    ensures r.fullName == Normalized(JoinFull(surname, name, patronymic))
    ensures r.shortName == ShortName(Normalized(surname), Normalized(name), Normalized(patronymic))
  {
    var s, n, p := Normalized(surname), Normalized(name), Normalized(patronymic);
    NormalizedJoin(surname, name, patronymic);
    var full := JoinFull(s, n, p);
    var short := ShortName(s, n, p);
    Record(full, short, Hash(full), Hash(short))
  }

  /** Normalising the joined triple is joining the normalised fields. */
  lemma NormalizedJoin(surname: seq<Byte>, name: seq<Byte>, patronymic: seq<Byte>)
    ensures Normalized(JoinFull(surname, name, patronymic))
         == JoinFull(Normalized(surname), Normalized(name), Normalized(patronymic))
  {
    NormalizedFixedPoints([Space]);
    NormalizedConcat(surname, [Space]);
    NormalizedConcat(surname + [Space], name);
    NormalizedConcat(surname + [Space] + name, [Space]);
    NormalizedConcat(surname + [Space] + name + [Space], patronymic);
  }

  /** The sort key `(full_hash, short_hash)` read as one 64-bit number. */
  function Key(r: Record): int
  {
    r.fullHash * 0x1_0000_0000 + r.shortHash
  }

  /** `Record::operator<`: lexicographic on `(full_hash, short_hash)`. */
  function Less(a: Record, b: Record): (lt: bool)
    ensures lt <==> Key(a) < Key(b)
  {
    if a.fullHash != b.fullHash then a.fullHash < b.fullHash
    else a.shortHash < b.shortHash
  }

  /**
   * `operator<` is a strict weak order, as `std::sort` demands: irreflexive,
   * transitive, and two records are unordered exactly when both hashes agree.
   */
  lemma LessIsStrictWeakOrder(a: Record, b: Record, c: Record)
    ensures !Less(a, a)
    ensures Less(a, b) ==> !Less(b, a)
    ensures Less(a, b) && Less(b, c) ==> Less(a, c)
    ensures !Less(a, b) && !Less(b, a) <==> a.fullHash == b.fullHash && a.shortHash == b.shortHash
  {
  }
}
